=== FILE: README.md ===
# Infant reconstruction runner — a Dafny model

This project models the decision logic of `InfantReconRunner`, the runner that
executes `infant_recon_all` commands (an infant brain MRI reconstruction
pipeline) and checks that the expected outputs exist. The external program,
the filesystem, the clock and the process are abstracted away; what remains is
modelled as pure functions over immutable data, with lemmas about them.

- `maybe.dfy` — `Option` and `Result`.
- `tokens.dfy` — Python's `str.split()` (splitting on every character
  `str.isspace` accepts) and `' '.join`, the first-index search of
  `list.index`, and the value following a flag.
- `paths.dfy` — paths as component sequences; `"."` resolves to the
  directory itself; rendering with `/`.
- `command.dfy` — `modify_command_for_unique_output` (token level `Rewrite`
  and text level `ModifyCommand`) and `generate_unique_output_dir` (subject
  extraction and naming).
- `config.dfy` — the manifest of expected outputs and `get_default_config`.
  A configuration mapping is a sequence of (directory, files) groups in
  the mapping's order.
- `validator.dfy` — `validate_outputs` over a filesystem given as two sets of
  paths: a declarative `Validate` and an imperative `ValidateOutputs` that walks
  the manifest with the same nested loops and running counters. The two are
  proved equal.
- `runner.dfy` — the outcome classification of `run_command`,
  `overall_success` of `run_and_validate` and the counts of `generate_report`.

The process outcome is a parameter, `Exited(code, stdout, stderr) | TimedOut |
Raised(message)`. Timestamps and the working directory are parameters too.
The filesystem seen by the validation is a parameter: it is whatever the run left
behind.

Where the code and its tests disagree, the model follows the code:
`infant_recon_runner_gpt.py:212` expects a `summary` key in the report, but
`generate_report` (`infant_recon_runner.py:372-378`) builds no such key.

## Model

| member | source | states |
|---|---|---|
| Tokens.Join | infant_recon_runner.py:103 | no contract of its own: `' '.join`, whose behaviour is stated by Tokens.SplitJoin and Tokens.SplitJoinSplit |
| Tokens.FlagValue | infant_recon_runner.py:74-75 | without the flag there is no value; a value, when there is one, is a token of the command and the flag occurs in it (Command.FlagValueAfterFirst pins which token) |
| Tokens.Split | infant_recon_runner.py:93 | splitting a command never yields an empty token or a token containing whitespace |
| Tokens.SplitJoin | infant_recon_runner.py:93-103 | joining whitespace-free tokens with single spaces and splitting again returns exactly those tokens |
| Tokens.SplitJoinSplit | infant_recon_runner.py:93-103 | split, join, split gives the same tokens as one split, so the joined command is a normal form |
| Tokens.SplitTrailingSpace | infant_recon_runner.py:93 | a trailing space does not change the tokens of a command |
| Tokens.Find | infant_recon_runner.py:95-96 | the search reports nothing exactly when the token is absent; otherwise it reports an index holding the token with no earlier occurrence |
| Paths.Resolve | infant_recon_runner.py:262-279 | the joined path is the base itself exactly for the name `.`, and otherwise one component below the base |
| Paths.Render | infant_recon_runner.py:83-86 | no contract of its own: the path text with `/` between components; Paths.RenderIsWord states when it is one command-line token |
| Command.FlagValueAfterFirst | infant_recon_runner.py:74-75 | the value of a flag is the token right after its first occurrence, and there is none when that occurrence is the last token |
| Command.Rewrite | infant_recon_runner.py:95-101 | the rewritten tokens always contain `--outdir` and are at most two tokens longer than the input; the rows below state each branch |
| Command.ModifyCommand | infant_recon_runner.py:90-103 | no contract of its own: split, rewrite, join; stated by Command.ModifyCommandTokens, Command.ModifyCommandIdempotent, Command.ModifyCommandDirectsOutput and the two counterexamples below |
| Command.RewriteAppends | infant_recon_runner.py:99-101 | without an `--outdir` token the rewrite appends `--outdir` and the directory, keeping every original token in place |
| Command.RewriteReplacesFirst | infant_recon_runner.py:95-98 | with `--outdir` first at i and a token after it, only token i+1 changes (to the directory) and the length stays the same |
| Command.RewriteKeepsDanglingFlag | infant_recon_runner.py:95-98 | when the first `--outdir` is the last token the tokens are returned unchanged |
| Command.RewriteSetsOutdir | infant_recon_runner.py:95-101 | unless the flag dangles, the rewritten tokens carry the directory as the `--outdir` value |
| Command.RewriteIdempotent | infant_recon_runner.py:95-103 | rewriting an already rewritten token list with the same directory changes nothing |
| Command.ModifyCommandTokens | infant_recon_runner.py:90-103 | for a single-token directory, the rewritten command text splits into exactly the rewritten tokens |
| Command.ModifyCommandIdempotent | infant_recon_runner.py:90-103 | for a single-token directory, rewriting the command text twice equals rewriting it once |
| Command.ModifyCommandDirectsOutput | infant_recon_runner.py:90-103 | for a single-token directory and no dangling flag, the rewritten command text, split as `str.split` splits it, carries the directory as its `--outdir` value |
| Command.SpacedDirIsSplit | infant_recon_runner.py:101-103 | a directory containing a space is split by the join: the command's `--outdir` value becomes only its first word |
| Command.EmptyDirNotIdempotent | infant_recon_runner.py:101-103 | with an empty directory the rewrite of the command text is not idempotent |
| Command.SubjectName | infant_recon_runner.py:72-77 | the subject is `unknown` or one of the command's tokens; Command.SubjectNameSpec says which |
| Command.OutputDir | infant_recon_runner.py:66-88 | no contract of its own: `<base>/<subject>_<timestamp>`; stated by Command.OutputDirUnderBase, Command.OutputDirsDistinct and Command.SameDirectoryIff |
| Command.SubjectNameSpec | infant_recon_runner.py:72-77 | the subject is the token after the first `-s`, and `unknown` when `-s` is absent or the last token |
| Command.OutputDirUnderBase | infant_recon_runner.py:79-88 | the directory is the given non-empty base, or `<cwd>/infant_recon_outputs`, followed by one more path component named subject, `_`, timestamp (a subject containing `/` stays one component here; see "Left out") |
| Command.UniqueName | infant_recon_runner.py:80 | no contract of its own: `<subject>_<timestamp>`; Command.UniqueNameInjective states that it separates subjects and timestamps |
| Command.UniqueNameInjective | infant_recon_runner.py:80 | names with one timestamp differ for different subjects, and names for one subject differ for different timestamps |
| Command.OutputDirsDistinct | infant_recon_runner.py:66-88 | two commands share a directory at one timestamp only if they name the same subject; one command at two timestamps only if they are equal |
| Command.SameDirectoryIff | infant_recon_runner.py:66-88 | at one timestamp and base, two commands get the same directory exactly when they name the same subject, so the per-command separation promised at lines 6 and 67 holds only up to subject and second |
| Command.DistinctCommandsCollide | infant_recon_runner.py:66-88 | the different commands `a -s x` and `b -s x` started in the same second get the same directory |
| Paths.RenderIsWord | infant_recon_runner.py:83-86 | a path whose components hold no whitespace renders to one command-line token |
| Config.FileCount | infant_recon_runner.py:272-274 | no contract of its own: the number of required file names; Validator.CheckFiles proves the loop's `total_required_files` counter equals it |
| Config.DefaultRequiredCount | infant_recon_runner.py:43-50 | the default manifest asks for twelve required files |
| Config.DefaultRequiredFilesInRequiredDirectories | infant_recon_runner.py:42-50 | every default required file lies in the output root or in a required directory |
| Validator.DefaultValidationPassedIff | infant_recon_runner.py:39-64 | with the default configuration a run passes exactly when the output directory, `mri`, `surf`, `label`, `stats`, `log` and the twelve listed required files exist |
| Config.DefaultDirectoriesDistinct | infant_recon_runner.py:43-55 | the default file mappings list each directory once, as mapping keys are |
| Validator.Label | infant_recon_runner.py:282-286 | no contract of its own: `<dir>/<file>`, also for `.`; Validator.ValidateReportsEveryRequiredFile and Validator.CompleteTreePasses state where it is reported |
| Validator.FilePath | infant_recon_runner.py:276-279 | the path looked for lies below the output directory, at most two levels down, and ends in the file name; Validator.FilePathBelow gives the `<dir>/<file>` branch |
| Validator.Classify | infant_recon_runner.py:260-287 | every expected entry is reported once, as found or as missing |
| Validator.ClassifyExact | infant_recon_runner.py:260-287 | each entry is reported in the list its existence calls for, and each reported name comes from an entry with that existence |
| Validator.ClassifyAppend | infant_recon_runner.py:261-287 | classification keeps manifest order: classifying a concatenation concatenates the found and the missing lists |
| Validator.ClassifyNoneMissing | infant_recon_runner.py:304-308 | nothing is missing exactly when every expected path exists |
| Validator.Validate | infant_recon_runner.py:229-323 | the required-file total is found plus missing and the found counter is the found list's length; no unexpected files; passing implies the directory exists |
| Validator.ValidateMissingRoot | infant_recon_runner.py:242-258 | a missing output directory fails with every found/missing list empty and both counters 0 |
| Validator.ValidatePassedIff | infant_recon_runner.py:304-308 | validation passes exactly when the output directory, every required directory and every required file exist |
| Validator.ValidateReportsEveryRequiredFile | infant_recon_runner.py:270-287 | every required file is reported under `<dir>/<file>` as found when it exists and as missing otherwise; the directory `.` is looked up in the root |
| Validator.ValidateReportsEveryOptionalFile | infant_recon_runner.py:289-302 | every optional file is reported under `<dir>/<file>` as found when it exists and as missing otherwise |
| Validator.ValidateRequiredLists | infant_recon_runner.py:260-302 | when the output directory exists, the directory, required-file and optional-file reports are exactly the classification of the manifest's entries, in manifest order, so nothing outside the manifest is reported (with Validator.ClassifyExact) |
| Validator.ValidateFollowsManifestOrder | infant_recon_runner.py:260-287 | when a manifest's required directories and file groups are one manifest's followed by another's, its found and missing lists are the first's followed by the second's |
| Validator.ValidateIgnoresOptional | infant_recon_runner.py:289-308 | optional and conditional files never change the verdict, the required lists, the counters or the summary |
| Validator.CompleteTreePasses | infant_recon_runner_gpt.py:153-168 | a tree with every file passes; required found is `./mprage.nii.gz`, `mri/brainmask.mgz` in order; `mri/wm.mgz` is an optional find |
| Validator.MissingRequiredFileFails | infant_recon_runner_gpt.py:170-178 | without `mri/brainmask.mgz` validation fails and lists that file as missing |
| Validator.CheckDirectories | infant_recon_runner.py:260-268 | the loop over required directories builds exactly the declarative classification |
| Validator.CheckGroup | infant_recon_runner.py:273-287 | the inner loop over one directory's files extends the classification by that group's entries, counting each file looked at and each file found |
| Validator.CheckFiles | infant_recon_runner.py:270-287 | the nested loop over groups and files builds the classification, and its counters equal the number of files and of found files |
| Validator.ValidateOutputs | infant_recon_runner.py:229-323 | the imperative validator returns exactly the declarative validation |
| Runner.Initial | infant_recon_runner.py:166-178 | no contract of its own: the record before the run, a failure with no exit code, empty output and no error; Runner.Record and Runner.RunCommand state what the outcome changes |
| Runner.Record | infant_recon_runner.py:192-225 | recording an outcome never changes the command, the directory or the times; a timeout or an exception leaves success, exit code and output as initialised; only a timeout sets the timeout flag |
| Runner.RunCommand | infant_recon_runner.py:116-227 | the recorded directory is the `<cwd>/infant_recon_outputs/<subject>_<timestamp>` directory and the recorded command is the original rewritten to point at it, so Command.SameDirectoryIff carries over to runs; success iff exit code 0; exit code only for an exit; timeout flag only for a timeout; an error message exactly when not successful, naming the timeout, the non-zero exit code or the exception's text; output kept only for an exit |
| Runner.RunCommandDirectsOutput | infant_recon_runner.py:117-121 | with no whitespace in the cwd components or the timestamp, the recorded command text, split as `str.split` splits it, carries the recorded directory as its `--outdir` value, and that directory lies under `<cwd>/infant_recon_outputs` |
| Runner.RunAndValidate | infant_recon_runner.py:340-352 | the validation report is the validation of the run's own recorded directory, and the overall verdict holds exactly when the process exited with 0 and that validation passed |
| Runner.PassingRunHasOutputs | infant_recon_runner.py:340-352 | a test passes exactly when the exit code is 0 and every required directory and file exists under the run's directory |
| Runner.CountPassed | infant_recon_runner.py:375 | the number of passed results is at most the number of results |
| Runner.CountFailed | infant_recon_runner.py:376 | the number of failed results is at most the number of results |
| Runner.PassedPlusFailed | infant_recon_runner.py:374-376 | passed plus failed equals the number of results |
| Runner.AllPassed | infant_recon_runner.py:375 | every test passed exactly when every result has a positive overall verdict |
| Runner.CountPassedAppend | infant_recon_runner.py:375 | the pass count of a concatenation is the sum of the pass counts |
| Runner.GenerateReport | infant_recon_runner.py:369-386 | a single result is wrapped as one test; total equals the number of details and passed plus failed; passed is the number of results whose overall verdict holds, and equals the total exactly when every result passed; only an empty list fails (the success rate divides by zero) |
| Runner.SingleResultReport | infant_recon_runner_gpt.py:204-211 | a single result gives a report of one test, passed exactly when that result passed |

## Left out

- Running the process, the FreeSurfer environment variables, `os.makedirs`, and writing `command.txt`, `environment.yml` and the JSON report: these are I/O and a call into an external program. The outcome and the resulting filesystem are parameters.
- Loading the YAML configuration and falling back to the default: this is a library call. The manifest is a parameter and `DefaultConfig` is the fallback value.
- Clock readings: every timestamp is an opaque string parameter. `execution_time_seconds` and the success-rate percentage are floating point. Only the percentage's division by zero on an empty list is modelled.
- Text of messages: the summary line and the error messages are datatypes carrying the same data. Formatting numbers as text is not modelled.
- `os.path.join` specifics: an absolute component resetting the path, empty components, and a trailing `/` on the base are not modelled. Paths are component sequences, an empty base counts as absent, and `"."` resolves to the directory itself for both directories and files. A manifest directory or file name containing `/` (a key such as `mri/orig`) is looked up as one component, where `os.path.join` would nest it.
- Command.OutputDirUnderBase: a subject containing `/` is kept as a single path component. In the source, `-s a/b` gives `<base>/a/b_<timestamp>`, two levels down, and `-s ../x` gives a directory outside the base.
- Command.OutputDirsDistinct: the source promises a separate directory for each command (`infant_recon_runner.py:6` and `:67`), but the name carries only the subject and the second. Two commands naming the same subject, or both lacking `-s`, in the same second share one directory (Command.SameDirectoryIff, Command.DistinctCommandsCollide). `os.makedirs(..., exist_ok=True)` then reuses it, so the second run can be validated against the first run's files. The model records this collision and does not add a disambiguator the source lacks.
- `generate_report` reading `overall_success` with a default of false from an arbitrary dictionary: results here are always typed records that carry the flag.
- `validate_outputs`' unused `command_result` argument, and the `working_dir` argument that is only passed to the process.
- Exceptions other than the process's own (for example from `os.makedirs`), and every `print`.
- Runner.RunCommandDirectsOutput: the command runs through `/bin/sh` (`shell=True`), whose parsing (quotes, `$` expansion, `;`) is approximated by whitespace splitting. A subject token such as `$S` or `x;y`, or a `'` in a working-directory component, makes the shell read a different `--outdir` than the one stated here.
- Runner.RunCommandDirectsOutput: requires whitespace-free path components and timestamp, because the joined command text is re-split on whitespace (see Command.SpacedDirIsSplit).
- Command.ModifyCommandIdempotent: requires a single-token directory, because an empty directory breaks idempotence (see Command.EmptyDirNotIdempotent).
- `infant_quick_test.py`, `infant_recon_all_test.py`, `example_program.py` and `example_unittest_coverage.py`: these are tests against an external argument parser and a real filesystem, plus coverage plumbing. The model has nothing to state about them.

=== FILE: command.dfy ===
/**
 Command rewriting and output-directory naming: each command the runner
 executes is pointed at an output directory named after its subject and a
 timestamp with one-second resolution, so two commands for one subject in
 the same second share a directory.
 */
module Command {
  import opened Maybe
  import opened Tokens
  import opened Paths

  const OutdirFlag := "--outdir"
  const SubjectFlag := "-s"
  const UnknownSubject := "unknown"
  /** The folder under the working directory that holds the default output directories. */
  const OutputsFolder := "infant_recon_outputs"

  /**
   `flag` occurs in `parts` and its first occurrence is at position `i`,
   stated without reference to any search function.
   */
  predicate FirstAt(parts: seq<string>, flag: string, i: nat) {
    i < |parts| && parts[i] == flag && flag !in parts[..i]
  }

  /** The first `--outdir` is the last token, so no directory follows it. */
  predicate DanglingOutdir(parts: seq<string>) {
    |parts| > 0 && FirstAt(parts, OutdirFlag, |parts| - 1)
  }

  /** The value of the first occurrence of a flag is the token after it, if any. */
  lemma FlagValueAfterFirst(parts: seq<string>, flag: string, i: nat)
    requires FirstAt(parts, flag, i)
    ensures FlagValue(parts, flag) == if i + 1 < |parts| then Some(parts[i + 1]) else None
  {
    FindFirst(parts, flag, i);
  }

  // ---------------------------------------------------------------------
  // modify_command_for_unique_output
  // ---------------------------------------------------------------------

  /**
   The token-level rewrite: the token after the first `--outdir` becomes
   `dir`; a command without `--outdir` gets `--outdir dir` appended; a
   command whose first `--outdir` is its last token is left alone. Only the
   exact token `--outdir` is recognised (`--outdir=x` is not).
   */
  function Rewrite(parts: seq<string>, dir: string): (r: seq<string>)
    ensures OutdirFlag in r
    ensures |parts| <= |r| <= |parts| + 2
  {
    match Find(parts, OutdirFlag)
    case None => parts + [OutdirFlag, dir]
    case Some(i) =>
      if i + 1 < |parts| then
        assert parts[i + 1 := dir][i] == OutdirFlag;
        parts[i + 1 := dir]
      else parts
  }

  /** The whole method on command text: split on whitespace, rewrite, join with single spaces. */
  function ModifyCommand(command: string, dir: string): string {
    Join(Rewrite(Split(command), dir))
  }

  lemma RewriteAppends(parts: seq<string>, dir: string)
    requires OutdirFlag !in parts
    ensures Rewrite(parts, dir) == parts + [OutdirFlag, dir]
  {
  }

  lemma RewriteReplacesFirst(parts: seq<string>, dir: string, i: nat)
    requires FirstAt(parts, OutdirFlag, i) && i + 1 < |parts|
    ensures |Rewrite(parts, dir)| == |parts|
    ensures Rewrite(parts, dir)[i + 1] == dir
    ensures forall j :: 0 <= j < |parts| && j != i + 1 ==> Rewrite(parts, dir)[j] == parts[j]
  {
    FindFirst(parts, OutdirFlag, i);
  }

  lemma RewriteKeepsDanglingFlag(parts: seq<string>, dir: string)
    requires DanglingOutdir(parts)
    ensures Rewrite(parts, dir) == parts
  {
    FindFirst(parts, OutdirFlag, |parts| - 1);
  }

  /** After the rewrite, `--outdir` is followed by `dir`, unless the flag was dangling. */
  lemma RewriteSetsOutdir(parts: seq<string>, dir: string)
    requires !DanglingOutdir(parts)
    ensures FlagValue(Rewrite(parts, dir), OutdirFlag) == Some(dir)
  {
    var r := Rewrite(parts, dir);
    match Find(parts, OutdirFlag)
    case None =>
      assert r[..|parts|] == parts;
      FlagValueAfterFirst(r, OutdirFlag, |parts|);
    case Some(i) =>
      assert r[..i] == parts[..i];
      FlagValueAfterFirst(r, OutdirFlag, i);
  }

  /** Rewriting a rewritten token list with the same directory changes nothing. */
  lemma RewriteIdempotent(parts: seq<string>, dir: string)
    ensures Rewrite(Rewrite(parts, dir), dir) == Rewrite(parts, dir)
  {
    var r := Rewrite(parts, dir);
    match Find(parts, OutdirFlag)
    case None =>
      assert r[..|parts|] == parts;
      FindFirst(r, OutdirFlag, |parts|);
      assert r[|parts| + 1 := dir] == r;
    case Some(i) =>
      if i + 1 < |parts| {
        assert r[..i] == parts[..i];
        FindFirst(r, OutdirFlag, i);
        assert r[i + 1 := dir] == r;
      }
  }

  /** The rewrite introduces no token that `str.split()` could not have produced. */
  lemma RewriteKeepsWords(parts: seq<string>, dir: string)
    requires AllWords(parts) && IsWord(dir)
    ensures AllWords(Rewrite(parts, dir))
  {
    var r := Rewrite(parts, dir);
    FlagsAreWords();
    forall i | 0 <= i < |r| ensures IsWord(r[i]) {
      if i < |parts| && r[i] == parts[i] {
      } else if r[i] == dir {
      } else {
        assert r[i] == OutdirFlag;
      }
    }
  }

  /** When `dir` is a single token, the rewritten command splits back into the rewritten tokens. */
  lemma ModifyCommandTokens(command: string, dir: string)
    requires IsWord(dir)
    ensures Split(ModifyCommand(command, dir)) == Rewrite(Split(command), dir)
  {
    RewriteKeepsWords(Split(command), dir);
    SplitJoin(Rewrite(Split(command), dir));
  }

  /** Rewriting the command text twice with the same single-token directory is rewriting it once. */
  lemma ModifyCommandIdempotent(command: string, dir: string)
    requires IsWord(dir)
    ensures ModifyCommand(ModifyCommand(command, dir), dir) == ModifyCommand(command, dir)
  {
    ModifyCommandTokens(command, dir);
    RewriteIdempotent(Split(command), dir);
  }

  /** The rewritten command text, split on whitespace, carries `dir` as its `--outdir` value. */
  lemma ModifyCommandDirectsOutput(command: string, dir: string)
    requires IsWord(dir) && !DanglingOutdir(Split(command))
    ensures FlagValue(Split(ModifyCommand(command, dir)), OutdirFlag) == Some(dir)
  {
    ModifyCommandTokens(command, dir);
    RewriteSetsOutdir(Split(command), dir);
  }

  /**
   A directory containing whitespace does not survive the join: the rewritten
   command's `--outdir` value is only the first piece of it.
   */
  lemma SpacedDirIsSplit()
    ensures FlagValue(Split(ModifyCommand("run", "my dir")), OutdirFlag) == Some("my")
  {
    var words := ["run", OutdirFlag, "my", "dir"];
    SpacedDirText();
    SpacedDirWords();
    assert FirstAt(words, OutdirFlag, 1) by { assert words[..1] == ["run"]; }
    FlagValueOfJoin(words, OutdirFlag, 1);
  }

  /** The four tokens of the rewritten text are words. */
  lemma SpacedDirWords()
    ensures AllWords(["run", OutdirFlag, "my", "dir"])
  {
    FlagsAreWords();
    assert IsWord("run") && IsWord("my") && IsWord("dir");
  }

  /** The value of a flag in joined words is read back from the words themselves. */
  lemma FlagValueOfJoin(words: seq<string>, flag: string, i: nat)
    requires AllWords(words) && FirstAt(words, flag, i)
    ensures FlagValue(Split(Join(words)), flag) == if i + 1 < |words| then Some(words[i + 1]) else None
  {
    SplitJoin(words);
    FlagValueAfterFirst(words, flag, i);
  }

  /** The rewritten text of `run` with the directory `my dir` reads as four words. */
  lemma SpacedDirText()
    ensures ModifyCommand("run", "my dir") == Join(["run", OutdirFlag, "my", "dir"])
  {
    var c := ModifyCommand("run", "my dir");
    assert Split("run") == ["run"] by { SplitJoin(["run"]); }
    var words := ["run", OutdirFlag, "my", "dir"];
    assert Rewrite(["run"], "my dir") == ["run", OutdirFlag, "my dir"];
    assert Join(["my dir"]) == "my dir";
    assert Join([OutdirFlag, "my dir"]) == OutdirFlag + " " + "my dir";
    assert c == "run" + " " + (OutdirFlag + " " + "my dir");
    assert words[2..] == ["my", "dir"] && words[2..][1..] == ["dir"];
    assert Intercalate(["dir"], " ") == "dir";
    assert Intercalate(["my", "dir"], " ") == "my" + " " + "dir";
    assert Join(words[2..]) == "my" + " " + "dir";
    assert words[1..][1..] == words[2..];
    assert Join(words[1..]) == OutdirFlag + " " + ("my" + " " + "dir");
  }

  /** An empty directory is not idempotent: the second pass drops the trailing space. */
  lemma EmptyDirNotIdempotent()
    ensures ModifyCommand(ModifyCommand("run", ""), "") != ModifyCommand("run", "")
  {
    var once := ModifyCommand("run", "");
    assert Split("run") == ["run"] by { SplitJoin(["run"]); }
    assert Rewrite(["run"], "") == ["run", OutdirFlag, ""];
    assert Join([OutdirFlag, ""]) == OutdirFlag + " " + "";
    assert once == "run" + " " + (OutdirFlag + " " + "");
    var words := ["run", OutdirFlag];
    assert AllWords(words) by { FlagsAreWords(); }
    assert words[1..] == [OutdirFlag];
    assert Intercalate(words, " ") == "run" + " " + OutdirFlag;
    assert once == Join(words) + " ";
    assert Split(once) == words by {
      SplitTrailingSpace(Join(words));
      SplitJoin(words);
    }
    RewriteKeepsDanglingFlag(words, "");
    assert |ModifyCommand(once, "")| < |once|;
  }

  // ---------------------------------------------------------------------
  // generate_unique_output_dir
  // ---------------------------------------------------------------------

  /** The two flags the runner reads are single command-line tokens. */
  lemma FlagsAreWords()
    ensures IsWord(OutdirFlag) && IsWord(SubjectFlag)
  {
    assert forall i :: 0 <= i < |OutdirFlag| ==> OutdirFlag[i] in "-outdir";
    assert forall i :: 0 <= i < |SubjectFlag| ==> SubjectFlag[i] in "-s";
  }

  /** The token after the first `-s`, or `"unknown"` when there is none. */
  function SubjectName(parts: seq<string>): (r: string)
    ensures r == UnknownSubject || r in parts
  {
    FlagValue(parts, SubjectFlag).OrElse(UnknownSubject)
  }

  function UniqueName(subject: string, timestamp: string): string {
    subject + "_" + timestamp
  }

  /**
   The output directory for `command`: `<base>/<subject>_<timestamp>`, where
   the base is `baseDir` when it is given and non-empty, and otherwise
   `<cwd>/infant_recon_outputs`. The clock reading and the working directory
   are parameters.
   */
  function OutputDir(command: string, timestamp: string, baseDir: Option<Path>, cwd: Path): Path {
    var name := UniqueName(SubjectName(Split(command)), timestamp);
    if baseDir.Some? && baseDir.value != [] then baseDir.value + [name]
    else cwd + [OutputsFolder, name]
  }

  /** The subject is the token after the first `-s`, and `"unknown"` if `-s` is absent or last. */
  lemma SubjectNameSpec(parts: seq<string>)
    ensures SubjectFlag !in parts ==> SubjectName(parts) == UnknownSubject
    ensures forall i: nat :: FirstAt(parts, SubjectFlag, i) ==>
      SubjectName(parts) == if i + 1 < |parts| then parts[i + 1] else UnknownSubject
  {
    forall i: nat | FirstAt(parts, SubjectFlag, i)
      ensures SubjectName(parts) == if i + 1 < |parts| then parts[i + 1] else UnknownSubject
    {
      FlagValueAfterFirst(parts, SubjectFlag, i);
    }
  }

  /**
   The directory is the base followed by one component that starts with the
   subject and `_`; the subject is kept as one component even when it holds `/`.
   */
  lemma OutputDirUnderBase(command: string, timestamp: string, baseDir: Option<Path>, cwd: Path)
    ensures var d := OutputDir(command, timestamp, baseDir, cwd);
      var base := if baseDir.Some? && baseDir.value != [] then baseDir.value else cwd + [OutputsFolder];
      var subject := SubjectName(Split(command));
      && |d| == |base| + 1
      && d[..|base|] == base
      && d[|base|][..|subject| + 1] == subject + "_"
      && d[|base|][|subject| + 1..] == timestamp
  {
  }

  /** Names with the same timestamp differ when the subjects differ, and vice versa. */
  lemma UniqueNameInjective(s1: string, t1: string, s2: string, t2: string)
    requires UniqueName(s1, t1) == UniqueName(s2, t2)
    ensures t1 == t2 ==> s1 == s2
    ensures s1 == s2 ==> t1 == t2
  {
    var n := UniqueName(s1, t1);
    if t1 == t2 {
      assert s1 == n[..|n| - |t1| - 1] == s2;
    }
    if s1 == s2 {
      assert t1 == n[|s1| + 1..] == t2;
    }
  }

  /**
   Two commands given the same timestamp and base get the same directory only
   if they name the same subject; one command gets the same directory at two
   timestamps only if the timestamps are equal.
   */
  lemma OutputDirsDistinct(c1: string, t1: string, c2: string, t2: string, baseDir: Option<Path>, cwd: Path)
    requires OutputDir(c1, t1, baseDir, cwd) == OutputDir(c2, t2, baseDir, cwd)
    ensures t1 == t2 ==> SubjectName(Split(c1)) == SubjectName(Split(c2))
    ensures c1 == c2 ==> t1 == t2
  {
    var d := OutputDir(c1, t1, baseDir, cwd);
    assert d[|d| - 1] == UniqueName(SubjectName(Split(c1)), t1);
    assert d[|d| - 1] == UniqueName(SubjectName(Split(c2)), t2);
    UniqueNameInjective(SubjectName(Split(c1)), t1, SubjectName(Split(c2)), t2);
  }

  /**
   At one timestamp and base, two commands share a directory exactly when
   they name the same subject: distinct commands for one subject, or two
   commands without `-s`, collide.
   */
  lemma SameDirectoryIff(c1: string, c2: string, t: string, baseDir: Option<Path>, cwd: Path)
    ensures OutputDir(c1, t, baseDir, cwd) == OutputDir(c2, t, baseDir, cwd) <==>
      SubjectName(Split(c1)) == SubjectName(Split(c2))
  {
    if OutputDir(c1, t, baseDir, cwd) == OutputDir(c2, t, baseDir, cwd) {
      OutputDirsDistinct(c1, t, c2, t, baseDir, cwd);
    }
  }

  /** The commands `a -s x` and `b -s x`, run within one second, get one directory. */
  lemma DistinctCommandsCollide(t: string, cwd: Path)
    ensures "a -s x" != "b -s x"
    ensures OutputDir("a -s x", t, None, cwd) == OutputDir("b -s x", t, None, cwd)
  {
    SubjectAfterWord("a");
    SubjectAfterWord("b");
    assert "a" + " -s x" == "a -s x" && "b" + " -s x" == "b -s x";
    SameDirectoryIff("a -s x", "b -s x", t, None, cwd);
  }

  /** A one-word command followed by `-s x` names the subject `x`. */
  lemma SubjectAfterWord(w: string)
    requires IsWord(w) && w != SubjectFlag
    ensures SubjectName(Split(w + " -s x")) == "x"
  {
    var p := [w, SubjectFlag, "x"];
    assert p[1..] == [SubjectFlag, "x"] && p[1..][1..] == ["x"];
    assert Intercalate(["x"], " ") == "x";
    assert Intercalate(p[1..], " ") == SubjectFlag + " " + "x";
    assert Join(p) == w + " -s x";
    FlagsAreWords();
    assert IsWord("x");
    SplitJoin(p);
    assert p[..1] == [w];
    assert FirstAt(p, SubjectFlag, 1);
    SubjectNameSpec(p);
  }
}

=== FILE: config.dfy ===
/**
 The declarative manifest of expected outputs the runner validates against,
 with the built-in default used when no configuration file can be loaded.
 A mapping of the configuration (directory to file names) is a sequence of
 groups, which keeps the order in which the mapping lists its keys.
 */
module Config {

  /** The files expected in one directory; `"."` is the output directory itself. */
  datatype FileGroup = FileGroup(directory: string, files: seq<string>)

  /** A group of files expected only when a named condition holds. */
  datatype ConditionalGroup = ConditionalGroup(name: string, condition: string, files: seq<FileGroup>)

  /**
   A missing key of the configuration reads as an empty collection, as the
   validator's `.get(key, default)` lookups do.
   */
  datatype Manifest = Manifest(
    requiredDirectories: seq<string>,
    requiredFiles: seq<FileGroup>,
    optionalFiles: seq<FileGroup>,
    conditionalFiles: seq<ConditionalGroup>)

  /** The number of file names listed over all groups. */
  function FileCount(groups: seq<FileGroup>): nat {
    if |groups| == 0 then 0
    else FileCount(groups[..|groups| - 1]) + |groups[|groups| - 1].files|
  }

  /** The configuration used when the configuration file is absent or malformed. */
  const DefaultConfig: Manifest := Manifest(
    ["mri", "surf", "label", "stats", "log"],
    [ FileGroup("mri", ["norm.mgz", "aseg.mgz", "brain.mgz", "brainmask.mgz", "norm.nii.gz", "aseg.nii.gz"]),
      FileGroup("surf", ["lh.white", "rh.white", "lh.orig", "rh.orig"]),
      FileGroup("label", []),
      FileGroup("stats", []),
      FileGroup("log", ["recon.log"]),
      FileGroup(".", ["mprage.nii.gz"]) ],
    [ FileGroup("mri", ["filled.mgz", "wm.mgz", "brain.finalsurfs.mgz"]),
      FileGroup("surf", ["lh.area", "rh.area", "lh.curv", "rh.curv", "lh.inflated", "rh.inflated"]),
      FileGroup("work", []) ],
    [ ConditionalGroup("surface_processing", "surfaces_generated",
        [FileGroup("surf", ["lh.pial", "rh.pial", "lh.sphere", "rh.sphere"])]) ])

  /** The directories of a group sequence are pairwise distinct, as the keys of a mapping are. */
  predicate DistinctDirectories(groups: seq<FileGroup>) {
    forall i, j :: 0 <= i < j < |groups| ==> groups[i].directory != groups[j].directory
  }

  /** The default configuration asks for twelve required files. */
  lemma DefaultRequiredCount()
    ensures FileCount(DefaultConfig.requiredFiles) == 12
  {
    var gs := DefaultConfig.requiredFiles;
    assert FileCount(gs[..0]) == 0;
    assert gs[..1][..0] == gs[..0];
    assert FileCount(gs[..1]) == 6;
    assert gs[..2][..1] == gs[..1];
    assert FileCount(gs[..2]) == 10;
    assert gs[..3][..2] == gs[..2];
    assert FileCount(gs[..3]) == 10;
    assert gs[..4][..3] == gs[..3];
    assert FileCount(gs[..4]) == 10;
    assert gs[..5][..4] == gs[..4];
    assert FileCount(gs[..5]) == 11;
    assert gs[..5] == gs[..|gs| - 1];
  }

  /**
   In the default configuration every directory that holds required files is
   either the output directory itself or a required directory.
   */
  lemma DefaultRequiredFilesInRequiredDirectories()
    ensures forall g :: g in DefaultConfig.requiredFiles ==>
      g.directory == "." || g.directory in DefaultConfig.requiredDirectories
  {
    var gs := DefaultConfig.requiredFiles;
    forall g | g in gs ensures g.directory == "." || g.directory in DefaultConfig.requiredDirectories {
      var i :| 0 <= i < |gs| && gs[i] == g;
      assert i < 5 ==> gs[i].directory == DefaultConfig.requiredDirectories[i];
    }
  }

  /** The default configuration's mappings have distinct keys. */
  lemma DefaultDirectoriesDistinct()
    ensures DistinctDirectories(DefaultConfig.requiredFiles)
    ensures DistinctDirectories(DefaultConfig.optionalFiles)
  {
    var gs := DefaultConfig.requiredFiles;
    forall i, j | 0 <= i < j < |gs| ensures gs[i].directory != gs[j].directory {
      assert gs[i].directory[0] != gs[j].directory[0] || |gs[i].directory| != |gs[j].directory|;
    }
  }
}

=== FILE: maybe.dfy ===
/**
 The two shapes of partial data in the runner: a value that Python may
 leave as `None`, and a computation that may fail with an error instead.
 */
module Maybe {

  /** A present or absent value. */
  datatype Option<T> = None | Some(value: T) {

    /** The value when present, otherwise `fallback`. */
    function OrElse(fallback: T): T {
      if Some? then value else fallback
    }
  }

  /** A computed value, or the error that stopped the computation. */
  datatype Result<T, E> = Success(value: T) | Failure(error: E)
}

=== FILE: paths.dfy ===
/**
 Filesystem paths as sequences of components, as the runner builds them with
 `os.path.join`.
 */
module Paths {
  import opened Tokens

  type Path = seq<string>

  /** The component that names a directory itself. */
  const CurrentDir := "."

  /**
   `os.path.join(out, name)` as the filesystem resolves it: the name `"."`
   denotes `out` itself, any other name is one level below it.
   */
  function Resolve(out: Path, name: string): (p: Path)
    ensures |out| <= |p| <= |out| + 1 && p[..|out|] == out
    ensures |p| == |out| <==> name == CurrentDir
  {
    if name == CurrentDir then out else out + [name]
  }

  /** The text of a path: its components joined with `/`. */
  function Render(p: Path): string {
    Intercalate(p, "/")
  }

  /** A path whose components hold no whitespace renders to a single command-line token. */
  lemma {:induction false} RenderIsWord(p: Path)
    requires |p| > 0 && |p[|p| - 1]| > 0
    requires forall i :: 0 <= i < |p| ==> NoSpace(p[i])
    ensures IsWord(Render(p))
    decreases |p|
  {
    if |p| == 1 {
    } else {
      var head, tail := p[0] + "/", Render(p[1..]);
      RenderIsWord(p[1..]);
      assert Render(p) == head + tail;
      assert NoSpace(head) by {
        forall i | 0 <= i < |head| ensures !IsSpace(head[i]) {
          if i < |p[0]| { assert head[i] == p[0][i]; } else { assert head[i] == '/'; }
        }
      }
      forall i | 0 <= i < |head + tail| ensures !IsSpace((head + tail)[i]) {
        if i < |head| { assert (head + tail)[i] == head[i]; }
        else { assert (head + tail)[i] == tail[i - |head|]; }
      }
    }
  }
}

=== FILE: runner.dfy ===
/**
 Running a command and aggregating results: how the outcome of the external
 process is recorded, how execution and validation combine into one verdict,
 and how a report counts verdicts. The process itself, the clock and the
 filesystem it leaves behind are parameters.
 */
module Runner {
  import opened Maybe
  import opened Tokens
  import opened Paths
  import opened Config
  import opened Command
  import opened Validator

  /** How the external process ended. */
  datatype Outcome =
    | Exited(code: int, stdout: string, stderr: string)
    | TimedOut
    | Raised(message: string)

  /** The data of the error message recorded for a run that did not succeed. */
  datatype ErrorMessage =
    | ExitedWithCode(code: int)
    | TimedOutAfter(seconds: int)
    | ExceptionText(text: string)

  datatype Execution = Execution(
    command: string,
    originalCommand: string,
    outputDirectory: Path,
    startTime: string,
    endTime: string,
    success: bool,
    exitCode: Option<int>,
    stdout: string,
    stderr: string,
    timeoutOccurred: bool,
    errorMessage: Option<ErrorMessage>)

  /** The record before the process runs: a failure with no exit code and empty output. */
  function Initial(command: string, original: string, dir: Path, startTime: string, endTime: string): Execution {
    Execution(command, original, dir, startTime, endTime, false, None, "", "", false, None)
  }

  /** Updates the initial record with what the process did, branch by branch. */
  function Record(initial: Execution, outcome: Outcome, timeout: int): (r: Execution)
    ensures r.command == initial.command && r.originalCommand == initial.originalCommand
    ensures r.outputDirectory == initial.outputDirectory
    ensures r.startTime == initial.startTime && r.endTime == initial.endTime
    ensures !outcome.Exited? ==> r.success == initial.success && r.exitCode == initial.exitCode
    ensures !outcome.Exited? ==> r.stdout == initial.stdout && r.stderr == initial.stderr
    ensures !outcome.TimedOut? ==> r.timeoutOccurred == initial.timeoutOccurred
  {
    match outcome
    case Exited(code, out, err) =>
      var r := initial.(success := code == 0, exitCode := Some(code), stdout := out, stderr := err);
      if code == 0 then r else r.(errorMessage := Some(ExitedWithCode(code)))
    case TimedOut =>
      initial.(timeoutOccurred := true, errorMessage := Some(TimedOutAfter(timeout)))
    case Raised(message) =>
      initial.(errorMessage := Some(ExceptionText(message)))
  }

  /**
   `run_command`: names a fresh output directory under the working directory,
   points the command at it and records the outcome. Success means exactly an
   exit with code 0; only an exit has an exit code; only a timeout sets the
   timeout flag; an error message is recorded exactly when the run failed.
   */
  function RunCommand(command: string, timeout: int, timestamp: string, cwd: Path,
                      startTime: string, endTime: string, outcome: Outcome): (r: Execution)
    ensures r.success <==> outcome.Exited? && outcome.code == 0
    ensures r.exitCode.Some? <==> outcome.Exited?
    ensures outcome.Exited? ==> r.exitCode.value == outcome.code
    ensures r.timeoutOccurred <==> outcome.TimedOut?
    ensures r.errorMessage.None? <==> r.success
    ensures outcome.TimedOut? ==> r.errorMessage == Some(TimedOutAfter(timeout))
    ensures outcome.Exited? && outcome.code != 0 ==> r.errorMessage == Some(ExitedWithCode(outcome.code))
    ensures outcome.Raised? ==> r.errorMessage == Some(ExceptionText(outcome.message))
    ensures outcome.Exited? ==> r.stdout == outcome.stdout && r.stderr == outcome.stderr
    ensures !outcome.Exited? ==> r.stdout == "" && r.stderr == ""
    ensures r.originalCommand == command
    ensures r.outputDirectory == OutputDir(command, timestamp, None, cwd)
    ensures r.command == ModifyCommand(command, Render(r.outputDirectory))
  {
    var dir := OutputDir(command, timestamp, None, cwd);
    var modified := ModifyCommand(command, Render(dir));
    Record(Initial(modified, command, dir, startTime, endTime), outcome, timeout)
  }

  /**
   The recorded command text, split on whitespace as `str.split` splits it,
   carries the recorded directory as its `--outdir` value, and that directory
   lies under `<cwd>/infant_recon_outputs`, provided no path component or the
   timestamp holds whitespace and the command has no dangling `--outdir`.
   The shell's own parsing (quotes, `$`, `;`) is not modelled.
   */
  lemma RunCommandDirectsOutput(command: string, timeout: int, timestamp: string, cwd: Path,
                                startTime: string, endTime: string, outcome: Outcome)
    requires forall i :: 0 <= i < |cwd| ==> NoSpace(cwd[i])
    requires NoSpace(timestamp)
    requires !DanglingOutdir(Split(command))
    ensures var r := RunCommand(command, timeout, timestamp, cwd, startTime, endTime, outcome);
      && r.outputDirectory[..|cwd| + 1] == cwd + [OutputsFolder]
      && FlagValue(Split(r.command), OutdirFlag) == Some(Render(r.outputDirectory))
  {
    var parts := Split(command);
    var subject := SubjectName(parts);
    assert NoSpace(subject) by {
      match FlagValue(parts, SubjectFlag)
      case None =>
      case Some(v) =>
        var i := Find(parts, SubjectFlag).value;
        assert v == parts[i + 1];
    }
    var name := UniqueName(subject, timestamp);
    assert NoSpace(name) by {
      forall i | 0 <= i < |name| ensures !IsSpace(name[i]) {
        if i < |subject| { assert name[i] == subject[i]; }
        else if i == |subject| { assert name[i] == '_'; }
        else { assert name[i] == timestamp[i - |subject| - 1]; }
      }
    }
    var dir := cwd + [OutputsFolder, name];
    assert dir == OutputDir(command, timestamp, None, cwd);
    assert NoSpace(OutputsFolder);
    forall i | 0 <= i < |dir| ensures NoSpace(dir[i]) {
      if i < |cwd| { assert dir[i] == cwd[i]; }
    }
    RenderIsWord(dir);
    ModifyCommandDirectsOutput(command, Render(dir));
  }

  // ---------------------------------------------------------------------
  // run_and_validate
  // ---------------------------------------------------------------------

  datatype Combined = Combined(
    execution: Execution,
    validation: Validation,
    overallSuccess: bool,
    testTimestamp: string)

  /**
   Runs the command and validates its output directory in `fs`, the
   filesystem the run leaves behind, even when the run failed. The test
   passes exactly when the process exited with code 0 and validation passed.
   */
  function RunAndValidate(m: Manifest, command: string, timeout: int, timestamp: string, cwd: Path,
                          startTime: string, endTime: string, outcome: Outcome, fs: FileSystem,
                          validationTimestamp: string, testTimestamp: string): (r: Combined)
    ensures r.overallSuccess <==> outcome.Exited? && outcome.code == 0 && r.validation.validationPassed
    ensures r.validation.outputDirectory == r.execution.outputDirectory
    ensures r.execution == RunCommand(command, timeout, timestamp, cwd, startTime, endTime, outcome)
    ensures r.validation == Validate(fs, r.execution.outputDirectory, m, validationTimestamp)
  {
    var execution := RunCommand(command, timeout, timestamp, cwd, startTime, endTime, outcome);
    var validation := Validate(fs, execution.outputDirectory, m, validationTimestamp);
    Combined(execution, validation, execution.success && validation.validationPassed, testTimestamp)
  }

  /**
   A passing test means the process exited with code 0 and every required
   directory and file exists under the run's own output directory.
   */
  lemma PassingRunHasOutputs(m: Manifest, command: string, timeout: int, timestamp: string, cwd: Path,
                             startTime: string, endTime: string, outcome: Outcome, fs: FileSystem,
                             validationTimestamp: string, testTimestamp: string)
    ensures var r := RunAndValidate(m, command, timeout, timestamp, cwd, startTime, endTime, outcome, fs,
                                    validationTimestamp, testTimestamp);
      var out := r.execution.outputDirectory;
      r.overallSuccess <==>
        && outcome.Exited? && outcome.code == 0
        && out in fs.dirs
        && DirsPresent(fs.dirs, out, m.requiredDirectories)
        && GroupsPresent(fs.files, out, m.requiredFiles)
  {
    var r := RunAndValidate(m, command, timeout, timestamp, cwd, startTime, endTime, outcome, fs,
                            validationTimestamp, testTimestamp);
    ValidatePassedIff(fs, r.execution.outputDirectory, m, validationTimestamp);
  }

  // ---------------------------------------------------------------------
  // generate_report
  // ---------------------------------------------------------------------

  /** The argument of the report: one combined result, or a list of them. */
  datatype Results = Single(result: Combined) | Batch(results: seq<Combined>)

  datatype Report = Report(
    reportTimestamp: string,
    totalTests: nat,
    passedTests: nat,
    failedTests: nat,
    testDetails: seq<Combined>)

  /** The success-rate line divides by the number of tests, which fails for none. */
  datatype ReportError = DivisionByZero

  /** The number of results whose overall verdict holds. */
  function CountPassed(rs: seq<Combined>): (n: nat)
    ensures n <= |rs|
  {
    if |rs| == 0 then 0
    else CountPassed(rs[..|rs| - 1]) + (if rs[|rs| - 1].overallSuccess then 1 else 0)
  }

  /** The number of results whose overall verdict does not hold. */
  function CountFailed(rs: seq<Combined>): (n: nat)
    ensures n <= |rs|
  {
    if |rs| == 0 then 0
    else CountFailed(rs[..|rs| - 1]) + (if rs[|rs| - 1].overallSuccess then 0 else 1)
  }

  /** Every result is counted once, as passed or as failed. */
  lemma {:induction false} PassedPlusFailed(rs: seq<Combined>)
    ensures CountPassed(rs) + CountFailed(rs) == |rs|
    decreases |rs|
  {
    if |rs| > 0 {
      PassedPlusFailed(rs[..|rs| - 1]);
    }
  }

  /** All tests pass exactly when every result is a success. */
  lemma {:induction false} AllPassed(rs: seq<Combined>)
    ensures CountPassed(rs) == |rs| <==> forall i :: 0 <= i < |rs| ==> rs[i].overallSuccess
    decreases |rs|
  {
    if |rs| > 0 {
      var init := rs[..|rs| - 1];
      AllPassed(init);
      assert CountPassed(init) <= |init| by { PassedPlusFailed(init); }
      if forall i :: 0 <= i < |rs| ==> rs[i].overallSuccess {
        assert forall i :: 0 <= i < |init| ==> init[i].overallSuccess by {
          forall i | 0 <= i < |init| ensures init[i].overallSuccess { assert init[i] == rs[i]; }
        }
      }
      if CountPassed(rs) == |rs| {
        forall i | 0 <= i < |rs| ensures rs[i].overallSuccess {
          if i < |init| { assert init[i] == rs[i]; }
        }
      }
    }
  }

  /** Counting passes over a concatenation adds the counts. */
  lemma {:induction false} CountPassedAppend(a: seq<Combined>, b: seq<Combined>)
    ensures CountPassed(a + b) == CountPassed(a) + CountPassed(b)
    decreases |b|
  {
    if |b| == 0 {
      assert a + b == a;
    } else {
      var b' := b[..|b| - 1];
      assert (a + b)[..|a + b| - 1] == a + b';
      CountPassedAppend(a, b');
    }
  }

  /**
   `generate_report`: wraps a single result as a one-element list, counts
   passed and failed tests, and fails only on an empty list.
   */
  function GenerateReport(results: Results, timestamp: string): (r: Result<Report, ReportError>)
    ensures r.Failure? <==> results == Batch([])
    ensures r.Success? ==> r.value.totalTests == |r.value.testDetails| == r.value.passedTests + r.value.failedTests
    ensures results.Single? ==> r.Success? && r.value.testDetails == [results.result]
    ensures results.Batch? && r.Success? ==> r.value.testDetails == results.results
    ensures r.Success? ==> r.value.passedTests == CountPassed(r.value.testDetails)
    ensures r.Success? ==> (r.value.passedTests == r.value.totalTests <==>
      forall i :: 0 <= i < |r.value.testDetails| ==> r.value.testDetails[i].overallSuccess)
  {
    var details := match results case Single(c) => [c] case Batch(rs) => rs;
    PassedPlusFailed(details);
    AllPassed(details);
    if |details| == 0 then Failure(DivisionByZero)
    else Success(Report(timestamp, |details|, CountPassed(details), CountFailed(details), details))
  }

  /** A single result yields a report of one test, passed exactly when that result passed. */
  lemma SingleResultReport(c: Combined, timestamp: string)
    ensures var r := GenerateReport(Single(c), timestamp);
      && r.Success? && r.value.totalTests == 1
      && r.value.passedTests == (if c.overallSuccess then 1 else 0)
  {
    assert [c][..0] == [];
  }
}

=== FILE: tokens.dfy ===
/**
 Whitespace tokenisation of a command line, as Python's `str.split()` (no
 separator) and `' '.join(...)` do it, and the search for the first occurrence
 of a token (`list.index`).
 */
module Tokens {
  import opened Maybe

  /** Python's `str.isspace` for a single character. */
  predicate IsSpace(c: char) {
    || ('\t' <= c <= '\r')
    || ('\U{1C}' <= c <= ' ')
    || c == '\U{85}' || c == '\U{A0}' || c == '\U{1680}'
    || ('\U{2000}' <= c <= '\U{200A}')
    || c == '\U{2028}' || c == '\U{2029}' || c == '\U{202F}' || c == '\U{205F}'
    || c == '\U{3000}'
  }

  predicate NoSpace(s: string) {
    forall i :: 0 <= i < |s| ==> !IsSpace(s[i])
  }

  /** A token `str.split()` can produce: non-empty and free of whitespace. */
  predicate IsWord(s: string) {
    |s| > 0 && NoSpace(s)
  }

  predicate AllWords(ts: seq<string>) {
    forall i :: 0 <= i < |ts| ==> IsWord(ts[i])
  }

  /** Splits `s`, with `cur` the characters of the token read so far. */
  function SplitFrom(s: string, cur: string): (r: seq<string>)
    requires NoSpace(cur)
    ensures AllWords(r)
    ensures |s| == 0 && cur == [] ==> r == []
    decreases |s|
  {
    if |s| == 0 then
      (if cur == [] then [] else [cur])
    else if IsSpace(s[0]) then
      (if cur == [] then SplitFrom(s[1..], []) else [cur] + SplitFrom(s[1..], []))
    else
      SplitFrom(s[1..], cur + [s[0]])
  }

  /** `s.split()`: the maximal runs of non-whitespace characters, in order. */
  function Split(s: string): (r: seq<string>)
    ensures AllWords(r)
  {
    SplitFrom(s, [])
  }

  /** `sep.join(ts)`. */
  function Intercalate(ts: seq<string>, sep: string): string {
    if |ts| == 0 then ""
    else if |ts| == 1 then ts[0]
    else ts[0] + sep + Intercalate(ts[1..], sep)
  }

  /** `' '.join(ts)`. */
  function Join(ts: seq<string>): string {
    Intercalate(ts, " ")
  }

  /** Reading a whitespace-free prefix only extends the current token. */
  lemma {:induction false} ScanWord(w: string, rest: string, cur: string)
    requires NoSpace(w) && NoSpace(cur)
    ensures NoSpace(cur + w)
    ensures SplitFrom(w + rest, cur) == SplitFrom(rest, cur + w)
    decreases |w|
  {
    if |w| == 0 {
      assert w + rest == rest;
      assert cur + w == cur;
    } else {
      var cur' := cur + [w[0]];
      assert NoSpace(cur') by {
        forall i | 0 <= i < |cur'| ensures !IsSpace(cur'[i]) {
          if i < |cur| { assert cur'[i] == cur[i]; } else { assert cur'[i] == w[0]; }
        }
      }
      assert (w + rest)[0] == w[0];
      assert (w + rest)[1..] == w[1..] + rest;
      ScanWord(w[1..], rest, cur');
      assert cur' + w[1..] == cur + w;
    }
  }

  /** Joining words with single spaces and splitting again gives the words back. */
  lemma {:induction false} SplitJoin(ts: seq<string>)
    requires AllWords(ts)
    ensures Split(Join(ts)) == ts
    decreases |ts|
  {
    if |ts| == 0 {
    } else if |ts| == 1 {
      assert ts[0] + "" == ts[0];
      ScanWord(ts[0], "", []);
      assert [] + ts[0] == ts[0];
    } else {
      var t, j := ts[0], Join(ts[1..]);
      assert Join(ts) == t + (" " + j);
      ScanWord(t, " " + j, []);
      assert [] + t == t;
      assert (" " + j)[0] == ' ';
      assert (" " + j)[1..] == j;
      assert AllWords(ts[1..]) by {
        forall i | 0 <= i < |ts[1..]| ensures IsWord(ts[1..][i]) { assert ts[1..][i] == ts[i + 1]; }
      }
      SplitJoin(ts[1..]);
      assert ts == [t] + ts[1..];
    }
  }

  lemma {:induction false} SplitFromTrailingSpace(s: string, cur: string)
    requires NoSpace(cur)
    ensures SplitFrom(s + " ", cur) == SplitFrom(s, cur)
    decreases |s|
  {
    if |s| == 0 {
      assert s + " " == " ";
    } else {
      assert (s + " ")[0] == s[0];
      assert (s + " ")[1..] == s[1..] + " ";
      if IsSpace(s[0]) {
        SplitFromTrailingSpace(s[1..], []);
      } else {
        var cur' := cur + [s[0]];
        assert NoSpace(cur') by {
          forall i | 0 <= i < |cur'| ensures !IsSpace(cur'[i]) {
            if i < |cur| { assert cur'[i] == cur[i]; } else { assert cur'[i] == s[0]; }
          }
        }
        SplitFromTrailingSpace(s[1..], cur');
      }
    }
  }

  /** A trailing space does not change how a string splits. */
  lemma SplitTrailingSpace(s: string)
    ensures Split(s + " ") == Split(s)
  {
    SplitFromTrailingSpace(s, []);
  }

  /** Splitting is a normal form: splitting the re-joined tokens changes nothing. */
  lemma SplitJoinSplit(s: string)
    ensures Split(Join(Split(s))) == Split(s)
  {
    SplitJoin(Split(s));
  }

  /** `ts.index(x)` when `x in ts`: the index of the first occurrence of `x`. */
  function Find<T(==)>(ts: seq<T>, x: T): (r: Option<nat>)
    ensures r.None? <==> x !in ts
    ensures r.Some? ==> r.value < |ts| && ts[r.value] == x && x !in ts[..r.value]
  {
    if |ts| == 0 then None
    else if ts[0] == x then Some(0)
    else
      match Find(ts[1..], x)
      case None => None
      case Some(i) =>
        assert ts[..i + 1] == [ts[0]] + ts[1..][..i];
        Some(i + 1)
  }

  /** An occurrence with no earlier occurrence is the one `Find` reports. */
  lemma FindFirst<T>(ts: seq<T>, x: T, i: nat)
    requires i < |ts| && ts[i] == x
    requires forall j :: 0 <= j < i ==> ts[j] != x
    ensures Find(ts, x) == Some(i)
  {
    assert x in ts;
  }

  /**
   The token right after the first occurrence of `flag`, if `flag` occurs
   and is not the last token.
   */
  function FlagValue(ts: seq<string>, flag: string): (r: Option<string>)
    ensures flag !in ts ==> r.None?
    ensures r.Some? ==> flag in ts && r.value in ts
  {
    match Find(ts, flag)
    case None => None
    case Some(i) => if i + 1 < |ts| then Some(ts[i + 1]) else None
  }
}

=== FILE: validator.dfy ===
/**
 The output validator: walks the manifest, sorts every expected directory
 and file into found or missing, counts the required files and decides
 whether the run passed. The filesystem is two sets of paths.
 */
module Validator {
  import opened Paths
  import opened Config

  /** The directories and regular files that exist. */
  datatype FileSystem = FileSystem(dirs: set<Path>, files: set<Path>)

  /** One expected entry: the name it is reported under and the path checked for it. */
  datatype Entry = Entry(name: string, path: Path)

  /** Labels of the entries that exist and of those that do not, each in manifest order. */
  datatype Partition = Partition(found: seq<string>, missing: seq<string>)

  const NoEntries := Partition([], [])

  /** The data of the human-readable summary line. */
  datatype Summary =
    | DirectoryMissing(outputDirectory: Path)
    | Counts(foundRequired: nat, totalRequired: nat, directoriesFound: nat)

  datatype Validation = Validation(
    outputDirectory: Path,
    validationTimestamp: string,
    directoryExists: bool,
    requiredDirectories: Partition,
    requiredFiles: Partition,
    optionalFiles: Partition,
    unexpectedFiles: seq<string>,
    totalRequiredFiles: nat,
    totalFoundRequired: nat,
    validationPassed: bool,
    summary: Summary)

  /** A file is reported as `<directory>/<file>`, also for the directory `"."`. */
  function Label(directory: string, file: string): string {
    directory + "/" + file
  }

  /** Where a file of a group is looked for: in the output directory itself when the group is `"."`. */
  function FilePath(out: Path, directory: string, file: string): (p: Path)
    ensures |out| < |p| <= |out| + 2 && p[..|out|] == out && p[|p| - 1] == file
  {
    Resolve(out, directory) + [file]
  }

  function DirEntries(out: Path, names: seq<string>): seq<Entry> {
    seq(|names|, k requires 0 <= k < |names| => Entry(names[k], Resolve(out, names[k])))
  }

  function GroupEntries(out: Path, g: FileGroup): seq<Entry> {
    seq(|g.files|, k requires 0 <= k < |g.files| =>
      Entry(Label(g.directory, g.files[k]), FilePath(out, g.directory, g.files[k])))
  }

  /** The files of all groups, group by group, each group in its own order. */
  function FileEntries(out: Path, groups: seq<FileGroup>): seq<Entry> {
    if |groups| == 0 then []
    else FileEntries(out, groups[..|groups| - 1]) + GroupEntries(out, groups[|groups| - 1])
  }

  /** Files one entry under found or missing. */
  function Step(p: Partition, e: Entry, present: set<Path>): Partition {
    if e.path in present then p.(found := p.found + [e.name])
    else p.(missing := p.missing + [e.name])
  }

  /** Sorts the entries into found and missing; nothing is lost or invented. */
  function Classify(present: set<Path>, entries: seq<Entry>): (r: Partition)
    ensures |r.found| + |r.missing| == |entries|
  {
    if |entries| == 0 then NoEntries
    else Step(Classify(present, entries[..|entries| - 1]), entries[|entries| - 1], present)
  }

  /** Every entry is reported in the list its existence calls for. */
  predicate ReportsEach(r: Partition, present: set<Path>, entries: seq<Entry>) {
    forall k :: 0 <= k < |entries| ==>
      if entries[k].path in present then entries[k].name in r.found else entries[k].name in r.missing
  }

  /** Every name in `names` comes from an entry whose existence is `want`. */
  predicate Sourced(names: seq<string>, entries: seq<Entry>, present: set<Path>, want: bool) {
    forall i :: 0 <= i < |names| ==>
      exists k :: 0 <= k < |entries| && entries[k].name == names[i] && (entries[k].path in present) == want
  }

  /** Every reported name comes from an entry with the matching existence. */
  predicate ReportsOnlyEntries(r: Partition, present: set<Path>, entries: seq<Entry>) {
    Sourced(r.found, entries, present, true) && Sourced(r.missing, entries, present, false)
  }

  lemma SourcedSnoc(names: seq<string>, entries: seq<Entry>, present: set<Path>, want: bool, e: Entry)
    requires Sourced(names, entries, present, want)
    ensures Sourced(names, entries + [e], present, want)
    ensures (e.path in present) == want ==> Sourced(names + [e.name], entries + [e], present, want)
  {
    var es := entries + [e];
    forall i | 0 <= i < |names|
      ensures exists k :: 0 <= k < |es| && es[k].name == names[i] && (es[k].path in present) == want
    {
      var k :| 0 <= k < |entries| && entries[k].name == names[i] && (entries[k].path in present) == want;
      assert es[k] == entries[k];
    }
    if (e.path in present) == want {
      var ns := names + [e.name];
      forall i | 0 <= i < |ns|
        ensures exists k :: 0 <= k < |es| && es[k].name == ns[i] && (es[k].path in present) == want
      {
        if i < |names| {
          assert ns[i] == names[i];
        } else {
          assert es[|entries|] == e;
        }
      }
    }
  }

  /** Classification is exact in both directions. */
  lemma ClassifyExact(present: set<Path>, entries: seq<Entry>)
    ensures ReportsEach(Classify(present, entries), present, entries)
    ensures ReportsOnlyEntries(Classify(present, entries), present, entries)
  {
    ClassifyReportsEach(present, entries);
    ClassifyReportsOnlyEntries(present, entries);
  }

  lemma {:induction false} ClassifyReportsEach(present: set<Path>, entries: seq<Entry>)
    ensures ReportsEach(Classify(present, entries), present, entries)
    decreases |entries|
  {
    if |entries| > 0 {
      var init, e := entries[..|entries| - 1], entries[|entries| - 1];
      var r := Classify(present, entries);
      ClassifyReportsEach(present, init);
      assert r == Step(Classify(present, init), e, present);
      forall k | 0 <= k < |entries|
        ensures if entries[k].path in present then entries[k].name in r.found else entries[k].name in r.missing
      {
        if k < |init| { assert entries[k] == init[k]; }
      }
    }
  }

  lemma {:induction false} ClassifyReportsOnlyEntries(present: set<Path>, entries: seq<Entry>)
    ensures ReportsOnlyEntries(Classify(present, entries), present, entries)
    decreases |entries|
  {
    if |entries| > 0 {
      var init, e := entries[..|entries| - 1], entries[|entries| - 1];
      var p := Classify(present, init);
      ClassifyReportsOnlyEntries(present, init);
      assert init + [e] == entries;
      SourcedSnoc(p.found, init, present, true, e);
      SourcedSnoc(p.missing, init, present, false, e);
    }
  }

  lemma ClassifySnoc(present: set<Path>, es: seq<Entry>, e: Entry)
    ensures Classify(present, es + [e]) == Step(Classify(present, es), e, present)
  {
    assert (es + [e])[..|es|] == es;
  }

  /** Classification keeps manifest order: classifying a concatenation concatenates the lists. */
  lemma {:induction false} ClassifyAppend(present: set<Path>, a: seq<Entry>, b: seq<Entry>)
    ensures Classify(present, a + b) ==
      Partition(Classify(present, a).found + Classify(present, b).found,
                Classify(present, a).missing + Classify(present, b).missing)
    decreases |b|
  {
    if |b| == 0 {
      assert a + b == a;
    } else {
      var b' := b[..|b| - 1];
      var e := b[|b| - 1];
      assert b == b' + [e];
      assert a + b == (a + b') + [e];
      ClassifySnoc(present, a + b', e);
      ClassifyAppend(present, a, b');
      ClassifySnoc(present, b', e);
    }
  }

  /** Every entry's path is present. */
  predicate AllPresent(present: set<Path>, entries: seq<Entry>) {
    forall k :: 0 <= k < |entries| ==> entries[k].path in present
  }

  /** Nothing is missing exactly when every entry's path is present. */
  lemma ClassifyNoneMissing(present: set<Path>, entries: seq<Entry>)
    ensures Classify(present, entries).missing == [] <==> AllPresent(present, entries)
  {
    var r := Classify(present, entries);
    ClassifyExact(present, entries);
    if r.missing != [] {
      var k :| 0 <= k < |entries| && entries[k].name == r.missing[0] && entries[k].path !in present;
    }
  }

  lemma FileEntriesCount(out: Path, groups: seq<FileGroup>)
    ensures |FileEntries(out, groups)| == FileCount(groups)
  {
  }

  /** Every required directory exists. */
  predicate DirsPresent(dirs: set<Path>, out: Path, names: seq<string>) {
    forall d :: d in names ==> Resolve(out, d) in dirs
  }

  /** Every file of every group exists. */
  predicate GroupsPresent(files: set<Path>, out: Path, groups: seq<FileGroup>) {
    forall g, f :: g in groups && f in g.files ==> FilePath(out, g.directory, f) in files
  }

  lemma DirEntriesPresent(dirs: set<Path>, out: Path, names: seq<string>)
    ensures AllPresent(dirs, DirEntries(out, names)) <==> DirsPresent(dirs, out, names)
  {
    var es := DirEntries(out, names);
    if DirsPresent(dirs, out, names) {
      forall k | 0 <= k < |es| ensures es[k].path in dirs {
        assert names[k] in names;
      }
    }
    if AllPresent(dirs, es) {
      forall d | d in names ensures Resolve(out, d) in dirs {
        var k :| 0 <= k < |names| && names[k] == d;
        assert es[k].path == Resolve(out, d);
      }
    }
  }

  /** Every file of one group exists. */
  predicate GroupPresent(files: set<Path>, out: Path, g: FileGroup) {
    forall f :: f in g.files ==> FilePath(out, g.directory, f) in files
  }

  lemma GroupEntriesPresent(files: set<Path>, out: Path, g: FileGroup)
    ensures AllPresent(files, GroupEntries(out, g)) <==> GroupPresent(files, out, g)
  {
    var es := GroupEntries(out, g);
    if AllPresent(files, es) {
      forall f | f in g.files ensures FilePath(out, g.directory, f) in files {
        var j :| 0 <= j < |g.files| && g.files[j] == f;
        assert es[j].path == FilePath(out, g.directory, f);
      }
    }
    if GroupPresent(files, out, g) {
      forall k | 0 <= k < |es| ensures es[k].path in files {
        assert g.files[k] in g.files;
      }
    }
  }

  lemma AllPresentAppend(present: set<Path>, a: seq<Entry>, b: seq<Entry>)
    ensures AllPresent(present, a + b) <==> AllPresent(present, a) && AllPresent(present, b)
  {
    if AllPresent(present, a + b) {
      forall k | 0 <= k < |a| ensures a[k].path in present { assert (a + b)[k] == a[k]; }
      forall k | 0 <= k < |b| ensures b[k].path in present { assert (a + b)[|a| + k] == b[k]; }
    }
  }

  lemma {:induction false} FileEntriesPresent(files: set<Path>, out: Path, groups: seq<FileGroup>)
    ensures AllPresent(files, FileEntries(out, groups)) <==> GroupsPresent(files, out, groups)
    decreases |groups|
  {
    if |groups| > 0 {
      var init, last := groups[..|groups| - 1], groups[|groups| - 1];
      FileEntriesPresent(files, out, init);
      AllPresentAppend(files, FileEntries(out, init), GroupEntries(out, last));
      GroupEntriesPresent(files, out, last);
      assert groups == init + [last];
      if GroupsPresent(files, out, groups) {
        forall g, f | g in init && f in g.files ensures FilePath(out, g.directory, f) in files {
          assert g in groups;
        }
        forall f | f in last.files ensures FilePath(out, last.directory, f) in files {
          assert last in groups;
        }
      }
    }
  }

  // ---------------------------------------------------------------------
  // validate_outputs
  // ---------------------------------------------------------------------

  /**
   The validation report for `out`. When the output directory does not exist,
   the report is returned at once with nothing checked. The clock reading is a
   parameter.
   */
  function Validate(fs: FileSystem, out: Path, m: Manifest, timestamp: string): (r: Validation)
    ensures r.totalFoundRequired == |r.requiredFiles.found|
    ensures r.totalRequiredFiles == |r.requiredFiles.found| + |r.requiredFiles.missing|
    ensures r.unexpectedFiles == []
    ensures r.outputDirectory == out
    ensures r.validationPassed ==> r.directoryExists
  {
    var rootExists := out in fs.dirs;
    var initial := Validation(out, timestamp, rootExists, NoEntries, NoEntries, NoEntries, [], 0, 0, false,
      DirectoryMissing(out));
    if !rootExists then initial
    else
      var dirs := Classify(fs.dirs, DirEntries(out, m.requiredDirectories));
      var required := Classify(fs.files, FileEntries(out, m.requiredFiles));
      var optional := Classify(fs.files, FileEntries(out, m.optionalFiles));
      var total := FileCount(m.requiredFiles);
      FileEntriesCount(out, m.requiredFiles);
      initial.(
        requiredDirectories := dirs,
        requiredFiles := required,
        optionalFiles := optional,
        totalRequiredFiles := total,
        totalFoundRequired := |required.found|,
        validationPassed := |dirs.missing| == 0 && |required.missing| == 0,
        summary := Counts(|required.found|, total, |dirs.found|))
  }

  /** A missing output directory fails validation with every list empty and both counters zero. */
  lemma ValidateMissingRoot(fs: FileSystem, out: Path, m: Manifest, timestamp: string)
    requires out !in fs.dirs
    ensures var r := Validate(fs, out, m, timestamp);
      && !r.directoryExists && !r.validationPassed
      && r.requiredDirectories == r.requiredFiles == r.optionalFiles == NoEntries
      && r.totalRequiredFiles == 0 && r.totalFoundRequired == 0
      && r.summary == DirectoryMissing(out)
  {
  }

  /**
   Validation passes exactly when the output directory, every required
   directory and every required file exist.
   */
  lemma ValidatePassedIff(fs: FileSystem, out: Path, m: Manifest, timestamp: string)
    ensures Validate(fs, out, m, timestamp).validationPassed <==>
      && out in fs.dirs
      && DirsPresent(fs.dirs, out, m.requiredDirectories)
      && GroupsPresent(fs.files, out, m.requiredFiles)
  {
    if out in fs.dirs {
      var dirs := Classify(fs.dirs, DirEntries(out, m.requiredDirectories));
      var required := Classify(fs.files, FileEntries(out, m.requiredFiles));
      assert Validate(fs, out, m, timestamp).validationPassed <==> dirs.missing == [] && required.missing == [];
      ClassifyNoneMissing(fs.dirs, DirEntries(out, m.requiredDirectories));
      ClassifyNoneMissing(fs.files, FileEntries(out, m.requiredFiles));
      DirEntriesPresent(fs.dirs, out, m.requiredDirectories);
      FileEntriesPresent(fs.files, out, m.requiredFiles);
    }
  }

  /**
   Every required file of the manifest is reported, under its label, as found
   when it exists and as missing when it does not.
   */
  lemma ValidateReportsEveryRequiredFile(fs: FileSystem, out: Path, m: Manifest, timestamp: string,
                                         i: nat, j: nat)
    requires out in fs.dirs
    requires i < |m.requiredFiles| && j < |m.requiredFiles[i].files|
    ensures var r := Validate(fs, out, m, timestamp);
      var g := m.requiredFiles[i];
      if FilePath(out, g.directory, g.files[j]) in fs.files
      then Label(g.directory, g.files[j]) in r.requiredFiles.found
      else Label(g.directory, g.files[j]) in r.requiredFiles.missing
  {
    var gs := m.requiredFiles;
    var e := Entry(Label(gs[i].directory, gs[i].files[j]), FilePath(out, gs[i].directory, gs[i].files[j]));
    EntryInFileEntries(out, gs, i, j);
    var es := FileEntries(out, gs);
    var k :| 0 <= k < |es| && es[k] == e;
    ClassifyExact(fs.files, es);
  }

  /**
   Every optional file is reported under `<dir>/<file>` as found when it
   exists and as missing otherwise, though it never affects the verdict.
   */
  lemma ValidateReportsEveryOptionalFile(fs: FileSystem, out: Path, m: Manifest, timestamp: string,
                                         i: nat, j: nat)
    requires out in fs.dirs
    requires i < |m.optionalFiles| && j < |m.optionalFiles[i].files|
    ensures var r := Validate(fs, out, m, timestamp);
      var g := m.optionalFiles[i];
      if FilePath(out, g.directory, g.files[j]) in fs.files
      then Label(g.directory, g.files[j]) in r.optionalFiles.found
      else Label(g.directory, g.files[j]) in r.optionalFiles.missing
  {
    var gs := m.optionalFiles;
    var e := Entry(Label(gs[i].directory, gs[i].files[j]), FilePath(out, gs[i].directory, gs[i].files[j]));
    EntryInFileEntries(out, gs, i, j);
    var es := FileEntries(out, gs);
    var k :| 0 <= k < |es| && es[k] == e;
    ClassifyExact(fs.files, es);
  }

  lemma {:induction false} EntryInFileEntries(out: Path, groups: seq<FileGroup>, i: nat, j: nat)
    requires i < |groups| && j < |groups[i].files|
    ensures Entry(Label(groups[i].directory, groups[i].files[j]),
                  FilePath(out, groups[i].directory, groups[i].files[j])) in FileEntries(out, groups)
    decreases |groups|
  {
    var init := groups[..|groups| - 1];
    if i < |groups| - 1 {
      assert init[i] == groups[i];
      EntryInFileEntries(out, init, i, j);
    } else {
      assert GroupEntries(out, groups[i])[j] in GroupEntries(out, groups[i]);
    }
  }

  lemma ValidateRequiredLists(fs: FileSystem, out: Path, m: Manifest, timestamp: string)
    requires out in fs.dirs
    ensures Validate(fs, out, m, timestamp).requiredDirectories == Classify(fs.dirs, DirEntries(out, m.requiredDirectories))
    ensures Validate(fs, out, m, timestamp).requiredFiles == Classify(fs.files, FileEntries(out, m.requiredFiles))
    ensures Validate(fs, out, m, timestamp).optionalFiles == Classify(fs.files, FileEntries(out, m.optionalFiles))
  {
  }

  lemma {:induction false} FileEntriesAppend(out: Path, a: seq<FileGroup>, b: seq<FileGroup>)
    ensures FileEntries(out, a + b) == FileEntries(out, a) + FileEntries(out, b)
    decreases |b|
  {
    if |b| == 0 {
      assert a + b == a;
    } else {
      var b', last := b[..|b| - 1], b[|b| - 1];
      var ab := a + b;
      assert ab[..|ab| - 1] == a + b' && ab[|ab| - 1] == last;
      assert FileEntries(out, ab) == FileEntries(out, a + b') + GroupEntries(out, last);
      FileEntriesAppend(out, a, b');
      assert FileEntries(out, b) == FileEntries(out, b') + GroupEntries(out, last);
    }
  }

  lemma DirEntriesAppend(out: Path, a: seq<string>, b: seq<string>)
    ensures DirEntries(out, a + b) == DirEntries(out, a) + DirEntries(out, b)
  {
    var l, r := DirEntries(out, a + b), DirEntries(out, a) + DirEntries(out, b);
    forall k | 0 <= k < |l| ensures l[k] == r[k] {
      if k < |a| { assert (a + b)[k] == a[k]; } else { assert (a + b)[k] == b[k - |a|]; }
    }
  }

  /**
   Reports follow manifest order: when a manifest's required directories and
   required-file groups are those of `m1` followed by those of `m2`, its
   reports list `m1`'s entries before `m2`'s.
   */
  lemma ValidateFollowsManifestOrder(fs: FileSystem, out: Path, m: Manifest, m1: Manifest, m2: Manifest,
                                     timestamp: string)
    requires out in fs.dirs
    requires m.requiredDirectories == m1.requiredDirectories + m2.requiredDirectories
    requires m.requiredFiles == m1.requiredFiles + m2.requiredFiles
    ensures var r, r1, r2 := Validate(fs, out, m, timestamp), Validate(fs, out, m1, timestamp),
                             Validate(fs, out, m2, timestamp);
      && r.requiredDirectories == Partition(r1.requiredDirectories.found + r2.requiredDirectories.found,
                                            r1.requiredDirectories.missing + r2.requiredDirectories.missing)
      && r.requiredFiles == Partition(r1.requiredFiles.found + r2.requiredFiles.found,
                                      r1.requiredFiles.missing + r2.requiredFiles.missing)
  {
    ValidateRequiredLists(fs, out, m, timestamp);
    ValidateRequiredLists(fs, out, m1, timestamp);
    ValidateRequiredLists(fs, out, m2, timestamp);
    var d1, d2 := m1.requiredDirectories, m2.requiredDirectories;
    DirEntriesAppend(out, d1, d2);
    ClassifyAppend(fs.dirs, DirEntries(out, d1), DirEntries(out, d2));
    FileEntriesAppend(out, m1.requiredFiles, m2.requiredFiles);
    ClassifyAppend(fs.files, FileEntries(out, m1.requiredFiles), FileEntries(out, m2.requiredFiles));
  }

  /**
   Optional and conditional files never change whether validation passes,
   what it reports about required entries, or its counters.
   */
  lemma ValidateIgnoresOptional(fs: FileSystem, out: Path, m: Manifest, timestamp: string,
                                optional: seq<FileGroup>, conditional: seq<ConditionalGroup>)
    ensures var r := Validate(fs, out, m, timestamp);
      var r' := Validate(fs, out, m.(optionalFiles := optional, conditionalFiles := conditional), timestamp);
      && r'.validationPassed == r.validationPassed
      && r'.requiredDirectories == r.requiredDirectories
      && r'.requiredFiles == r.requiredFiles
      && r'.totalRequiredFiles == r.totalRequiredFiles
      && r'.totalFoundRequired == r.totalFoundRequired
      && r'.summary == r.summary
  {
  }

  /** Every file of every group exists exactly when each group's files exist. */
  lemma GroupsPresentEach(files: set<Path>, out: Path, groups: seq<FileGroup>)
    ensures GroupsPresent(files, out, groups) <==>
      forall i :: 0 <= i < |groups| ==> GroupPresent(files, out, groups[i])
  {
    if forall i :: 0 <= i < |groups| ==> GroupPresent(files, out, groups[i]) {
      forall g, f | g in groups && f in g.files ensures FilePath(out, g.directory, f) in files {
        var i :| 0 <= i < |groups| && groups[i] == g;
        assert GroupPresent(files, out, groups[i]);
      }
    }
  }

  /** A file of a group other than `"."` is looked for one level below that directory. */
  lemma FilePathBelow(out: Path, directory: string, file: string)
    requires directory != CurrentDir
    ensures FilePath(out, directory, file) == out + [directory, file]
  {
  }

  /**
   The files of a group below a named directory exist exactly when
   `out + [d, f]` exists for each of its names `f`.
   */
  lemma GroupPresentBelow(files: set<Path>, out: Path, d: string, names: seq<string>)
    requires d != CurrentDir
    ensures GroupPresent(files, out, FileGroup(d, names)) <==>
      forall f :: f in names ==> out + [d, f] in files
  {
    forall f ensures FilePath(out, d, f) == out + [d, f] {
      FilePathBelow(out, d, f);
    }
  }

  /** The default required files under `mri`. */
  lemma DefaultMriPresent(files: set<Path>, out: Path)
    ensures GroupPresent(files, out, DefaultConfig.requiredFiles[0]) <==>
      && out + ["mri", "norm.mgz"] in files && out + ["mri", "aseg.mgz"] in files
      && out + ["mri", "brain.mgz"] in files && out + ["mri", "brainmask.mgz"] in files
      && out + ["mri", "norm.nii.gz"] in files && out + ["mri", "aseg.nii.gz"] in files
  {
    var names := ["norm.mgz", "aseg.mgz", "brain.mgz", "brainmask.mgz", "norm.nii.gz", "aseg.nii.gz"];
    assert DefaultConfig.requiredFiles[0] == FileGroup("mri", names);
    GroupPresentBelow(files, out, "mri", names);
    assert names[0] in names && names[1] in names && names[2] in names;
    assert names[3] in names && names[4] in names && names[5] in names;
  }

  /** The default required files under `surf`. */
  lemma DefaultSurfPresent(files: set<Path>, out: Path)
    ensures GroupPresent(files, out, DefaultConfig.requiredFiles[1]) <==>
      && out + ["surf", "lh.white"] in files && out + ["surf", "rh.white"] in files
      && out + ["surf", "lh.orig"] in files && out + ["surf", "rh.orig"] in files
  {
    var names := ["lh.white", "rh.white", "lh.orig", "rh.orig"];
    assert DefaultConfig.requiredFiles[1] == FileGroup("surf", names);
    GroupPresentBelow(files, out, "surf", names);
    assert names[0] in names && names[1] in names && names[2] in names && names[3] in names;
  }

  /** The remaining default groups: nothing under `label` and `stats`, the log, and the input copy at the root. */
  lemma DefaultOtherGroupsPresent(files: set<Path>, out: Path)
    ensures GroupPresent(files, out, DefaultConfig.requiredFiles[2])
    ensures GroupPresent(files, out, DefaultConfig.requiredFiles[3])
    ensures GroupPresent(files, out, DefaultConfig.requiredFiles[4]) <==> out + ["log", "recon.log"] in files
    ensures GroupPresent(files, out, DefaultConfig.requiredFiles[5]) <==> out + ["mprage.nii.gz"] in files
  {
    FilePathBelow(out, "log", "recon.log");
    assert "recon.log" in DefaultConfig.requiredFiles[4].files;
    assert "mprage.nii.gz" in DefaultConfig.requiredFiles[5].files;
  }

  /** The default required directories. */
  lemma DefaultDirsPresent(dirs: set<Path>, out: Path)
    ensures DirsPresent(dirs, out, DefaultConfig.requiredDirectories) <==>
      && out + ["mri"] in dirs && out + ["surf"] in dirs && out + ["label"] in dirs
      && out + ["stats"] in dirs && out + ["log"] in dirs
  {
    var names := DefaultConfig.requiredDirectories;
    assert "mri" in names && "surf" in names && "label" in names && "stats" in names && "log" in names;
  }

  /**
   With the default configuration a run passes exactly when the output
   directory, its five required directories and its twelve required files exist.
   */
  lemma DefaultValidationPassedIff(fs: FileSystem, out: Path, timestamp: string)
    ensures Validate(fs, out, DefaultConfig, timestamp).validationPassed <==>
      && out in fs.dirs
      && out + ["mri"] in fs.dirs && out + ["surf"] in fs.dirs && out + ["label"] in fs.dirs
      && out + ["stats"] in fs.dirs && out + ["log"] in fs.dirs
      && out + ["mri", "norm.mgz"] in fs.files && out + ["mri", "aseg.mgz"] in fs.files
      && out + ["mri", "brain.mgz"] in fs.files && out + ["mri", "brainmask.mgz"] in fs.files
      && out + ["mri", "norm.nii.gz"] in fs.files && out + ["mri", "aseg.nii.gz"] in fs.files
      && out + ["surf", "lh.white"] in fs.files && out + ["surf", "rh.white"] in fs.files
      && out + ["surf", "lh.orig"] in fs.files && out + ["surf", "rh.orig"] in fs.files
      && out + ["log", "recon.log"] in fs.files
      && out + ["mprage.nii.gz"] in fs.files
  {
    var gs := DefaultConfig.requiredFiles;
    ValidatePassedIff(fs, out, DefaultConfig, timestamp);
    GroupsPresentEach(fs.files, out, gs);
    DefaultDirsPresent(fs.dirs, out);
    DefaultMriPresent(fs.files, out);
    DefaultSurfPresent(fs.files, out);
    DefaultOtherGroupsPresent(fs.files, out);
    assert (forall i :: 0 <= i < |gs| ==> GroupPresent(fs.files, out, gs[i])) <==>
      GroupPresent(fs.files, out, gs[0]) && GroupPresent(fs.files, out, gs[1]) &&
      GroupPresent(fs.files, out, gs[2]) && GroupPresent(fs.files, out, gs[3]) &&
      GroupPresent(fs.files, out, gs[4]) && GroupPresent(fs.files, out, gs[5]);
  }

  // ---------------------------------------------------------------------
  // The scenarios of the unit tests
  // ---------------------------------------------------------------------

  /** The manifest the unit tests install: one file at the root, one under `mri`, one optional. */
  const TestManifest := Manifest(
    [],
    [FileGroup(".", ["mprage.nii.gz"]), FileGroup("mri", ["brainmask.mgz"])],
    [FileGroup("mri", ["wm.mgz"])],
    [])

  /**
   A tree with every required and optional file passes; the root file is
   looked for directly in the output directory yet reported as `./mprage.nii.gz`.
   */
  lemma CompleteTreePasses(out: Path, timestamp: string)
    ensures var fs := FileSystem({out, out + ["mri"]},
                                 {out + ["mprage.nii.gz"], out + ["mri", "brainmask.mgz"], out + ["mri", "wm.mgz"]});
      var r := Validate(fs, out, TestManifest, timestamp);
      && r.validationPassed
      && r.requiredFiles == Partition(["./mprage.nii.gz", "mri/brainmask.mgz"], [])
      && r.optionalFiles.found == ["mri/wm.mgz"]
  {
    var fs := FileSystem({out, out + ["mri"]},
                         {out + ["mprage.nii.gz"], out + ["mri", "brainmask.mgz"], out + ["mri", "wm.mgz"]});
    var root := Entry("./mprage.nii.gz", out + ["mprage.nii.gz"]);
    var mask := Entry("mri/brainmask.mgz", out + ["mri", "brainmask.mgz"]);
    var wm := Entry("mri/wm.mgz", out + ["mri", "wm.mgz"]);
    TestFileEntries(out);
    assert Classify(fs.files, [root]) == Partition([root.name], []) by {
      ClassifySnoc(fs.files, [], root);
    }
    ClassifySnoc(fs.files, [root], mask);
    assert [root] + [mask] == [root, mask];
    ClassifySnoc(fs.files, [], wm);
  }

  lemma SingleGroupEntries(out: Path, g: FileGroup)
    requires |g.files| == 1
    ensures GroupEntries(out, g) == [Entry(Label(g.directory, g.files[0]), FilePath(out, g.directory, g.files[0]))]
  {
  }

  lemma TwoGroupEntries(out: Path, g0: FileGroup, g1: FileGroup)
    ensures FileEntries(out, [g0, g1]) == GroupEntries(out, g0) + GroupEntries(out, g1)
  {
    assert [g0, g1][..1] == [g0] && [g0][..0] == [];
    assert FileEntries(out, [g0]) == [] + GroupEntries(out, g0);
    assert FileEntries(out, [g0, g1]) == FileEntries(out, [g0]) + GroupEntries(out, g1);
  }

  /** The entries the test manifest expects, in manifest order. */
  lemma TestFileEntries(out: Path)
    ensures FileEntries(out, TestManifest.requiredFiles) ==
      [Entry("./mprage.nii.gz", out + ["mprage.nii.gz"]), Entry("mri/brainmask.mgz", out + ["mri", "brainmask.mgz"])]
    ensures FileEntries(out, TestManifest.optionalFiles) == [Entry("mri/wm.mgz", out + ["mri", "wm.mgz"])]
  {
    var gs := TestManifest.requiredFiles;
    var os := TestManifest.optionalFiles;
    TwoGroupEntries(out, gs[0], gs[1]);
    SingleGroupEntries(out, gs[0]);
    SingleGroupEntries(out, gs[1]);
    SingleGroupEntries(out, os[0]);
    assert os[..0] == [];
    assert FilePath(out, "mri", "brainmask.mgz") == out + ["mri", "brainmask.mgz"] by {
      assert out + ["mri"] + ["brainmask.mgz"] == out + ["mri", "brainmask.mgz"];
    }
    assert FilePath(out, "mri", "wm.mgz") == out + ["mri", "wm.mgz"] by {
      assert out + ["mri"] + ["wm.mgz"] == out + ["mri", "wm.mgz"];
    }
    TestLabels();
  }

  /** The labels the unit tests expect. */
  lemma TestLabels()
    ensures Label(".", "mprage.nii.gz") == "./mprage.nii.gz"
    ensures Label("mri", "brainmask.mgz") == "mri/brainmask.mgz"
    ensures Label("mri", "wm.mgz") == "mri/wm.mgz"
  {
  }

  /** Without `mri/brainmask.mgz` validation fails and reports that file missing. */
  lemma MissingRequiredFileFails(out: Path, timestamp: string)
    ensures var fs := FileSystem({out}, {out + ["mprage.nii.gz"]});
      var r := Validate(fs, out, TestManifest, timestamp);
      !r.validationPassed && "mri/brainmask.mgz" in r.requiredFiles.missing
  {
    var fs := FileSystem({out}, {out + ["mprage.nii.gz"]});
    var mask := out + ["mri", "brainmask.mgz"];
    assert |mask| != |out + ["mprage.nii.gz"]|;
    assert mask !in fs.files;
    assert out + ["mri"] + ["brainmask.mgz"] == mask;
    assert FilePath(out, "mri", "brainmask.mgz") == mask;
    TestLabels();
    ValidateReportsEveryRequiredFile(fs, out, TestManifest, timestamp, 1, 0);
    assert "mri/brainmask.mgz" in Validate(fs, out, TestManifest, timestamp).requiredFiles.missing;
    ValidatePassedIff(fs, out, TestManifest, timestamp);
    assert TestManifest.requiredFiles[1] in TestManifest.requiredFiles;
    assert "brainmask.mgz" in TestManifest.requiredFiles[1].files;
  }

  // ---------------------------------------------------------------------
  // The same walk as the nested loops of the source
  // ---------------------------------------------------------------------

  method CheckDirectories(dirs: set<Path>, out: Path, names: seq<string>) returns (p: Partition)
    ensures p == Classify(dirs, DirEntries(out, names))
  {
    p := NoEntries;
    var k := 0;
    while k < |names|
      invariant 0 <= k <= |names|
      invariant p == Classify(dirs, DirEntries(out, names[..k]))
    {
      var e := Entry(names[k], Resolve(out, names[k]));
      assert DirEntries(out, names[..k + 1]) == DirEntries(out, names[..k]) + [e];
      ClassifySnoc(dirs, DirEntries(out, names[..k]), e);
      if e.path in dirs {
        p := p.(found := p.found + [e.name]);
      } else {
        p := p.(missing := p.missing + [e.name]);
      }
      k := k + 1;
    }
    assert names[..k] == names;
  }

  /**
   The inner loop over one group's files: continues the classification `p0`
   of the entries before the group, counting every file looked at and every
   file found.
   */
  /** Classifying one more entry of a group is one step of the classification. */
  lemma GroupPrefixStep(files: set<Path>, out: Path, group: FileGroup, done: seq<Entry>, k: nat)
    requires k < |group.files|
    ensures var es := GroupEntries(out, group);
      var e := Entry(Label(group.directory, group.files[k]), FilePath(out, group.directory, group.files[k]));
      Classify(files, done + es[..k + 1]) == Step(Classify(files, done + es[..k]), e, files)
  {
    var es := GroupEntries(out, group);
    var e := Entry(Label(group.directory, group.files[k]), FilePath(out, group.directory, group.files[k]));
    assert es[..k + 1] == es[..k] + [e];
    assert done + es[..k + 1] == (done + es[..k]) + [e];
    ClassifySnoc(files, done + es[..k], e);
  }

  method CheckGroup(files: set<Path>, out: Path, group: FileGroup, p0: Partition, ghost done: seq<Entry>)
    returns (p: Partition, looked: nat, found: nat)
    requires p0 == Classify(files, done)
    ensures p == Classify(files, done + GroupEntries(out, group))
    ensures looked == |group.files|
    ensures |p.found| == |p0.found| + found
  {
    p, looked, found := p0, 0, 0;
    ghost var es := GroupEntries(out, group);
    assert done + es[..0] == done;
    while looked < |group.files|
      invariant looked <= |group.files|
      invariant p == Classify(files, done + es[..looked])
      invariant |p.found| == |p0.found| + found
    {
      var e := Entry(Label(group.directory, group.files[looked]), FilePath(out, group.directory, group.files[looked]));
      GroupPrefixStep(files, out, group, done, looked);
      if e.path in files {
        p := p.(found := p.found + [e.name]);
        found := found + 1;
      } else {
        p := p.(missing := p.missing + [e.name]);
      }
      looked := looked + 1;
    }
    assert es[..looked] == es;
  }

  /**
   The loop over a mapping of directories to file lists: classifies every
   file, counting how many it looked at and how many it found.
   */
  method CheckFiles(files: set<Path>, out: Path, groups: seq<FileGroup>)
    returns (p: Partition, total: nat, found: nat)
    ensures p == Classify(files, FileEntries(out, groups))
    ensures total == FileCount(groups)
    ensures found == |p.found|
  {
    p, total, found := NoEntries, 0, 0;
    var g := 0;
    while g < |groups|
      invariant 0 <= g <= |groups|
      invariant p == Classify(files, FileEntries(out, groups[..g]))
      invariant total == FileCount(groups[..g])
      invariant found == |p.found|
    {
      var looked, foundHere;
      p, looked, foundHere := CheckGroup(files, out, groups[g], p, FileEntries(out, groups[..g]));
      total, found := total + looked, found + foundHere;
      assert groups[..g + 1][..g] == groups[..g];
      g := g + 1;
    }
    assert groups[..g] == groups;
  }

  /** The validator written as the source writes it, with loops and running counters. */
  method ValidateOutputs(fs: FileSystem, out: Path, m: Manifest, timestamp: string)
    returns (v: Validation)
    ensures v == Validate(fs, out, m, timestamp)
  {
    v := Validation(out, timestamp, out in fs.dirs, NoEntries, NoEntries, NoEntries, [], 0, 0, false,
      DirectoryMissing(out));
    if !v.directoryExists {
      return;
    }
    var dirs := CheckDirectories(fs.dirs, out, m.requiredDirectories);
    var required, total, found := CheckFiles(fs.files, out, m.requiredFiles);
    var optional, _, _ := CheckFiles(fs.files, out, m.optionalFiles);
    v := v.(
      requiredDirectories := dirs,
      requiredFiles := required,
      optionalFiles := optional,
      totalRequiredFiles := total,
      totalFoundRequired := found,
      validationPassed := |dirs.missing| == 0 && |required.missing| == 0,
      summary := Counts(found, total, |dirs.found|));
  }
}
